=== FILE: README.md ===
# Chunked-read `cat` in Dafny

A model of `regular_cat.c`, a `cat` that reads each file with one
scatter-gather `readv` call. For each path argument the program opens the
file and asks `get_file_size` for its length. A regular file reports its
`st_size`; a block device reports the `BLKGETSIZE64` ioctl result. The
program then splits that length into one descriptor per 4096-byte block
(`BLOCK_SZ`), each backed by a freshly allocated 4096-byte buffer. One
`readv` fills all the buffers, and the emission loop writes them to
standard output in index order. `main` handles the arguments in order and
stops with status 1 at the first file that fails.

The system calls are not modelled. A path argument is a `FileInput` value
recording what each call returns for it:
- whether `open` succeeds,
- the `fstat` and ioctl results,
- which `posix_memalign` call fails first, if any,
- whether `readv` reports an error,
- the bytes readable from the file.

`readv` is modelled as a scatter: buffer `i` receives the `i`-th
consecutive slice of those bytes, as long as its planned length.

Modules, one per stage:
- `Environment` (environment.dfy): bytes, entry types, call results, error kinds.
- `SizeResolver` (size_resolver.dfy): `get_file_size`, plus the same decision with explicit errors.
- `ChunkPlan` (chunk_plan.dfy): the block count, the buffer plan, and the chunking loop.
- `Emitter` (emitter.dfy): the readv scatter, the emission loop, and the round trip.
- `Driver` (driver.dfy): `read_and_print_file` for one argument, and `main`'s fail-fast loop.
- `BlockCountCast` (block_count_cast.dfy): the block count exactly as written, including the
  32-bit cast (see Findings).

## Model

| member | source | states |
|---|---|---|
| SizeResolver.GetFileSize | regular_cat.c:12-32 | The result is -1 exactly when fstat fails, the ioctl on a block device fails, or the entry is neither a regular file nor a block device. Otherwise it is non-negative: the ioctl byte count for a block device, `st_size` for a regular file. |
| SizeResolver.ResolveSize | regular_cat.c:15-31 | A size is produced exactly for a regular file, or for a block device whose ioctl succeeds. The size is the ioctl byte count for a block device and `st_size` for a regular file. A failed fstat is a `SizeQueryFailed(Fstat)` error, a failed ioctl is `SizeQueryFailed(Ioctl)`, and any other entry type is `UnsupportedEntryType`. |
| SizeResolver.SentinelMatchesResolve | regular_cat.c:12-32 | The explicit-error resolver fails exactly when `get_file_size` returns -1. When it succeeds, both give the same size. |
| ChunkPlan.BlockCount | regular_cat.c:52-53 | The block count is the ceiling of size / 4096: `n * 4096 >= size`, and `(n - 1) * 4096 < size` when `n > 0`. |
| ChunkPlan.BlockCountUnique | regular_cat.c:52-53 | The ceiling characterisation determines the block count uniquely. |
| ChunkPlan.BlockCountZero | regular_cat.c:52-53 | The block count is 0 exactly for an empty file. |
| ChunkPlan.ChunkLen | regular_cat.c:62-64 | Every planned length is between 1 and 4096, so it fits its 4096-byte buffer. Only the last block can be shorter than 4096. |
| ChunkPlan.Plan | regular_cat.c:55-79 | The buffer plan the chunking loop builds has exactly `BlockCount(size)` lengths, one per descriptor in the array. Each length is between 1 and 4096, so it fits its 4096-byte buffer. |
| ChunkPlan.PlanPrefixSum | regular_cat.c:60-78 | The first `k` planned lengths sum to `k * 4096` while that is below the size. Once `k` reaches the block count they sum to the size. |
| ChunkPlan.PlanSum | regular_cat.c:60-78 | The planned lengths sum to the file size. |
| ChunkPlan.PlanShape | regular_cat.c:62-64 | Every length but the last is 4096. The last is size mod 4096, or 4096 when the size is a positive multiple of 4096. |
| ChunkPlan.PlanOf10000 | regular_cat.c:62-64 | A 10000-byte file is planned as [4096, 4096, 1808]. |
| ChunkPlan.PlanChunks | regular_cat.c:49-79 | The loop writes only indices below `blocks` into the `blocks`-sized descriptor array. Here `blocks` is the ceiling block count. When every allocation succeeds, the loop ends with exactly `blocks` descriptors holding the plan, and their lengths sum to the size. It fails exactly when the failing allocation's index is below `blocks`; it then returns the plan's prefix up to that index. Every length is in 1..4096. |
| Emitter.Scatter | regular_cat.c:82 | A full readv yields one buffer per planned length, each filled to exactly its planned length. |
| Emitter.ScatterSlice | regular_cat.c:82 | Buffer `i` holds the bytes starting where buffer `i - 1` ends, for exactly its planned length. |
| Emitter.ScatterFlatten | regular_cat.c:82-89 | Writing out, in order, the buffers one full readv filled reproduces the bytes read. |
| Emitter.EmitBuffers | regular_cat.c:88-89 | The emission loop writes every buffer in index order with nothing in between; the output is their concatenation. |
| Emitter.ReadThroughPlan | regular_cat.c:49-89 | Planning `size` bytes, reading them through that plan and emitting the buffers outputs exactly the first `size` bytes, unchanged and in order. An empty file outputs nothing. |
| Driver.FileOutcome | regular_cat.c:39-93 | A file fails exactly when open, the size query, one of the buffer allocations or readv fails; this depends only on those calls' results. A failed open gives `OpenFailed`, and a failed size query gives that query's error. Otherwise the file is printed as its first `size` bytes, in order. |
| Driver.RegularFileRoundTrip | regular_cat.c:39-93 | A regular file whose calls all succeed is printed verbatim and in full. |
| Driver.EmptyFilePrintsNothing | regular_cat.c:52-60 | An empty regular file has an empty plan and prints nothing. No allocation happens, so an allocator failure cannot affect it. |
| Driver.ReadAndPrintFile | regular_cat.c:39-93 | The imperative composition of open, size, chunking loop, readv and emission loop has exactly the outcome `FileOutcome` describes. |
| Driver.FirstFailing | regular_cat.c:102-108 | The index returned is the first argument on which read_and_print_file fails: no earlier argument fails, and the one at the index does. It equals the number of arguments when none fails. It depends only on the call results, not on file data. |
| Driver.FirstFailingIs | regular_cat.c:102-108 | A failing argument preceded only by arguments that do not fail is the first failing one. |
| Driver.Cat | regular_cat.c:95-111 | With no argument the status is 1 and nothing is printed. Otherwise the status is 0 exactly when no argument fails, and 1 otherwise. The output is the printed bytes of the arguments before the first failing one, in argument order. Only those arguments must read in full; nothing is required of the arguments after the first failing one. |
| Driver.FailFast | regular_cat.c:102-108 | Arguments after the first failing one are never looked at. Two argument lists that agree up to and including the first failing argument fail at the same index, with nothing required of what follows. The arguments before that index, which are all `Cat` prints, are then identical. |
| Driver.ContentsOfVerbatim | regular_cat.c:102-110 | If every argument is printed verbatim, the printed bytes are the arguments' data concatenated in argument order. |
| Driver.AllRegularFilesConcatenate | regular_cat.c:102-110 | When every argument is a regular file whose calls all succeed, none fails. The output is then the files' bytes concatenated in argument order, with no separators. |
| BlockCountCast.ToInt32 | regular_cat.c:52 | The `(int)` conversion gives an int32 value that is congruent to its input modulo 2^32, and leaves in-range values unchanged. |
| BlockCountCast.TruncDiv | regular_cat.c:52 | C division truncates toward zero: it agrees with floor division for non-negative dividends, and rounds negative ones up. |
| BlockCountCast.BlockCountAsWritten | regular_cat.c:52-53 | The count as written: the size is converted to a 32-bit int, divided by 4096 with truncation, and incremented on a nonzero remainder of the 64-bit size. For sizes below 2^31 it equals the ceiling block count. |
| BlockCountCast.AsWrittenTooSmall | regular_cat.c:52-79 | For every size from 2^31 up to the largest `off_t`, the block count as written is below the number of descriptors the chunking loop fills, so the descriptor array is too small or unallocated. |
| BlockCountCast.AsWrittenAtMostOneBelow4GiB | regular_cat.c:52-53 | For sizes from 2^31 to 2^32 - 1, the block count as written is at most 1. |
| BlockCountCast.AsWrittenOneJustBelow4GiB | regular_cat.c:52-79 | For sizes from 2^31 to 2^32 - 1, the count as written is 1 exactly when the size is at least 2^32 - 4095, and there the loop fills 1048576 descriptors. |
| BlockCountCast.AsWrittenAt2GiB | regular_cat.c:52-55 | For a file of exactly 2^31 bytes, the count as written is -524288, while the loop needs 524288 descriptors. |
| BlockCountCast.AsWrittenOverrunAt4GiBPlusBlock | regular_cat.c:52-79 | For a file of 2^32 + 4096 bytes, the count as written is 1, while the loop stores 1048577 descriptors. |

## Left out

- System calls (`open`, `fstat`, `ioctl`, `posix_memalign`, `malloc`, `readv`, `fwrite`) are foreign calls. Their results are fields of `FileInput`, and readv is a scatter of the file's bytes.
- Messages on the error stream (`perror`, the usage text, "Error reading file") are not modelled. Only the exit status and the bytes on standard output are.
- The 4096-byte alignment from `posix_memalign` is not modelled, because addresses have no meaning in the model. Only the 4096-byte buffer capacity is kept.
- Memory and descriptor lifetime is not modelled. The per-block buffers are never freed and the descriptor is never closed; only the descriptor array is freed, and only when the file is printed. This is a known leak and is not stated as a property.
- A NULL result from the `malloc` of the descriptor array is not checked by the source. It is not modelled.
- Driver.FileOutcome: a failed size query ends the file with the resolver's error. The source does not check the -1 from `get_file_size`: it plans one descriptor of length `(size_t)-1` and relies on `readv` rejecting it. Status 1 and empty output agree with the model only if `readv` does reject that length.
- Driver.NoShortRead: short reads are excluded by precondition, and the round trip assumes a full read. The condition constrains only a file that reaches a successful readv; `Cat` asks it only of the arguments before the first failing one. The source only checks readv's result for `< 0` and never compares it with the planned total.
- Write failures on standard output are not modelled, because the source ignores `fwrite`'s result.
- readv's limit on the number of descriptors (IOV_MAX) is not modelled. A file that needs more descriptors than the platform allows shows up only as `readvFails`.
- SizeResolver.GetFileSize: an ioctl byte count of 2^63 or more, which would wrap when returned as `off_t`, is not modelled. The count is an unbounded natural.

## Findings

| source | as written | input that shows it | evidently intended | confidence | as-written member | corrected member |
|---|---|---|---|---|---|---|
| regular_cat.c:52 | `blocks = (int) file_sz / BLOCK_SZ` converts the 64-bit size to a 32-bit int before dividing | a regular file of 2147483648 bytes: `blocks` becomes -524288, malloc receives a wrapped size, returns NULL (unchecked) and the first descriptor store faults; a file of 4294963201 bytes (2^32 - 4095): `blocks` becomes 1 and the loop stores 1048576 descriptors into a one-entry array | `blocks` is the ceiling of size / 4096, computed on the 64-bit size | high (not executed) | BlockCountCast.AsWrittenAt2GiB | ChunkPlan.BlockCount |

`BlockCountCast.BlockCountAsWritten` is the as-written computation, and
`BlockCountCast.AsWrittenTooSmall` generalises the counterexample to every
size from 2^31 up to the largest `off_t`.
`BlockCountCast.AsWrittenOneJustBelow4GiB` names the lower edge of the sizes
where the array is allocated with one entry but the loop fills many: from
2^32 - 4095 bytes on. `BlockCountCast.AsWrittenOverrunAt4GiBPlusBlock` gives
one more such size above 4 GiB. The rest of the model plans with the
corrected `ChunkPlan.BlockCount`, which `ChunkPlan.PlanChunks` proves to be
exactly the number of descriptors the loop fills.

=== FILE: block_count_cast.dfy ===
/** The block count as read_and_print_file computes it: the 64-bit off_t
    size is converted to a 32-bit int before the division, and C's integer
    division truncates toward zero. The conversion keeps the value modulo
    2^32 (the behaviour GCC and Clang define for out-of-range conversions). */
module BlockCountCast {
  import opened ChunkPlan

  const Int32Modulus: int := 0x1_0000_0000
  const Int32Max: int := 0x7fff_ffff
  /** The largest off_t. */
  const OffMax: int := 0x7fff_ffff_ffff_ffff

  /** `(int) x`: the int32 value congruent to `x` modulo 2^32. */
  function ToInt32(x: int): (r: int)
    ensures -Int32Max - 1 <= r <= Int32Max
    ensures (x - r) % Int32Modulus == 0
    ensures -Int32Max - 1 <= x <= Int32Max ==> r == x
  {
    var m := x % Int32Modulus;
    if m > Int32Max then m - Int32Modulus else m
  }

  /** C's `/`: the quotient truncated toward zero. */
  function TruncDiv(a: int, b: int): (q: int)
    requires b > 0
    ensures a >= 0 ==> q == a / b
    ensures a < 0 ==> q <= 0 && -q * b <= -a < (-q + 1) * b
  {
    if a >= 0 then a / b else -((-a) / b)
  }

  /** The block count as computed before the chunking loop: the size is
      converted to a 32-bit int, divided by the block size with truncation,
      and then incremented when the 64-bit size leaves a remainder (for a
      non-negative size, C's remainder is the mathematical one). Below
      2 GiB the count is the ceiling of size / BLOCK_SZ. */
  function BlockCountAsWritten(size: nat): (blocks: int)
    requires size <= OffMax
    ensures size <= Int32Max ==> blocks == BlockCount(size)
  {
    TruncDiv(ToInt32(size), BlockSize) + (if size % BlockSize != 0 then 1 else 0)
  }

  /** From 2 GiB up to the largest off_t, the computed count falls short of
      the number of blocks the chunking loop fills, so the descriptor array
      is too small or unallocated. */
  lemma AsWrittenTooSmall(size: nat)
    requires Int32Max < size <= OffMax
    ensures BlockCountAsWritten(size) < BlockCount(size)
  {
  }

  /** Between 2 GiB and 4 GiB the computed count is at most one. */
  lemma AsWrittenAtMostOneBelow4GiB(size: nat)
    requires Int32Max < size < Int32Modulus
    ensures BlockCountAsWritten(size) <= 1
  {
    assert ToInt32(size) == size - Int32Modulus;
  }

  /** Below 4 GiB the computed count is 1 exactly for the last 4095 sizes,
      from 2^32 - 4095 on; there malloc gives a one-entry descriptor array
      while the loop fills 2^20 descriptors. Below that edge the count is
      zero or negative. */
  lemma AsWrittenOneJustBelow4GiB(size: nat)
    requires Int32Max < size < Int32Modulus
    ensures BlockCountAsWritten(size) == 1 <==> Int32Modulus - BlockSize < size
    ensures Int32Modulus - BlockSize < size ==> BlockCount(size) == 1048576
  {
    assert ToInt32(size) == size - Int32Modulus;
  }

  /** A file of exactly 2 GiB: the computed count is negative, so the
      allocation size `sizeof(struct iovec) * blocks` wraps as a size_t,
      malloc returns NULL, which is never checked, and the first descriptor
      store faults; the loop would need 524288 descriptors. */
  lemma AsWrittenAt2GiB()
    ensures BlockCountAsWritten(Int32Max + 1) == -524288
    ensures BlockCount(Int32Max + 1) == 524288
  {
  }

  /** A file of 4 GiB plus one block: the computed count is 1, so malloc
      gives a one-entry descriptor array, and the loop stores 1048577
      descriptors into it, running past its end. */
  lemma AsWrittenOverrunAt4GiBPlusBlock()
    ensures BlockCountAsWritten(Int32Modulus + BlockSize) == 1
    ensures BlockCount(Int32Modulus + BlockSize) == 1048577
  {
  }
}

=== FILE: chunk_plan.dfy ===
/** The buffer plan of read_and_print_file: a file of `size` bytes is read
    into one buffer per 4096-byte block, the last one holding the remainder. */
module ChunkPlan {
  import opened Environment

  /** BLOCK_SZ: the capacity of every buffer and the alignment it is allocated with. */
  const BlockSize: nat := 4096

  /** The sum of a sequence of buffer lengths. */
  function Sum(lens: seq<nat>): nat
  {
    if |lens| == 0 then 0 else Sum(lens[..|lens| - 1]) + lens[|lens| - 1]
  }

  /** The number of buffers: size / BLOCK_SZ, plus one for a partial last
      block. It is the ceiling of size / BLOCK_SZ. */
  function BlockCount(size: nat): (n: nat)
    ensures n * BlockSize >= size
    ensures n == 0 || (n - 1) * BlockSize < size
  {
    size / BlockSize + (if size % BlockSize != 0 then 1 else 0)
  }

  /** The ceiling characterisation determines the block count. */
  lemma BlockCountUnique(size: nat, k: nat)
    requires k * BlockSize >= size
    requires k == 0 || (k - 1) * BlockSize < size
    ensures k == BlockCount(size)
  {
  }

  /** A file is planned with no buffer at all exactly when it is empty. */
  lemma BlockCountZero(size: nat)
    ensures BlockCount(size) == 0 <==> size == 0
  {
  }

  /** The planned length of buffer `i`: a full block, or what is left of the file. */
  function ChunkLen(size: nat, i: nat): (len: nat)
    requires i < BlockCount(size)
    ensures 0 < len <= BlockSize
    ensures len == BlockSize || i == BlockCount(size) - 1
  {
    if size - i * BlockSize > BlockSize then BlockSize else size - i * BlockSize
  }

  /** The lengths of all buffers, in file order. */
  function Plan(size: nat): (lens: seq<nat>)
    ensures |lens| == BlockCount(size)
    ensures forall i :: 0 <= i < |lens| ==> 0 < lens[i] <= BlockSize
  {
    seq(BlockCount(size), i requires 0 <= i < BlockCount(size) => ChunkLen(size, i))
  }

  /** The first `k` buffers cover `k` full blocks, or the whole file once
      `k` reaches the block count. */
  lemma {:induction false} PlanPrefixSum(size: nat, k: nat)
    requires k <= BlockCount(size)
    ensures Sum(Plan(size)[..k]) == if k * BlockSize < size then k * BlockSize else size
  {
    if k > 0 {
      PlanPrefixSum(size, k - 1);
      assert Plan(size)[..k][..k - 1] == Plan(size)[..k - 1];
    }
  }

  /** The buffer lengths add up to the file size. */
  lemma PlanSum(size: nat)
    ensures Sum(Plan(size)) == size
  {
    PlanPrefixSum(size, BlockCount(size));
    assert Plan(size)[..BlockCount(size)] == Plan(size);
  }

  /** Every buffer but the last is a full block; the last holds size mod
      BLOCK_SZ, or a full block when the size is a positive multiple of it. */
  lemma PlanShape(size: nat)
    ensures forall i :: 0 <= i < |Plan(size)| - 1 ==> Plan(size)[i] == BlockSize
    ensures |Plan(size)| > 0 ==>
      Plan(size)[|Plan(size)| - 1] == if size % BlockSize == 0 then BlockSize else size % BlockSize
  {
  }

  /** A 10000-byte file is read into buffers of 4096, 4096 and 1808 bytes. */
  lemma PlanOf10000()
    ensures Plan(10000) == [4096, 4096, 1808]
  {
    assert BlockCount(10000) == 3;
  }

  /** The block-counting and chunking loop of read_and_print_file. The
      buffers are allocated one per iteration; `allocFailsAt` is the index
      of the posix_memalign call that fails, if any, at which point the
      loop gives up and returns the lengths planned so far with `ok` false.
      `iovecs` is the array of BLOCK_SZ-sized descriptors, allocated with
      `blocks` entries before the loop; every write to it is in bounds. */
  method PlanChunks(size: nat, allocFailsAt: Option<nat>) returns (ok: bool, blocks: nat, lens: seq<nat>)
    ensures blocks == BlockCount(size)
    ensures ok <==> allocFailsAt.None? || allocFailsAt.value >= blocks
    ensures ok ==> lens == Plan(size) && Sum(lens) == size
    ensures !ok ==> allocFailsAt == Some(|lens|) && lens == Plan(size)[..|lens|]
    ensures forall i :: 0 <= i < |lens| ==> 0 < lens[i] <= BlockSize
  {
    blocks := size / BlockSize;
    if size % BlockSize != 0 {
      blocks := blocks + 1;
    }
    var iovecs := new nat[blocks];
    var current := 0;
    var remaining := size;
    while remaining != 0
      invariant 0 <= current <= blocks
      invariant remaining == if current * BlockSize < size then size - current * BlockSize else 0
      invariant remaining == 0 ==> current == blocks
      invariant forall i :: 0 <= i < current ==> iovecs[i] == ChunkLen(size, i)
      invariant allocFailsAt.Some? ==> allocFailsAt.value >= current
      decreases remaining
    {
      var toRead := remaining;
      if toRead > BlockSize {
        toRead := BlockSize;
      }
      if allocFailsAt == Some(current) {
        lens := iovecs[..current];
        assert lens == Plan(size)[..current];
        return false, blocks, lens;
      }
      iovecs[current] := toRead;
      current := current + 1;
      remaining := remaining - toRead;
    }
    lens := iovecs[..];
    assert lens == Plan(size);
    PlanSum(size);
    return true, blocks, lens;
  }
}

=== FILE: driver.dfy ===
/** read_and_print_file for one path argument, and the argument loop of
    main, which stops at the first file that cannot be printed. */
module Driver {
  import opened Environment
  import opened SizeResolver
  import opened ChunkPlan
  import opened Emitter

  /** What one call of read_and_print_file does: print bytes and return 0,
      or return 1 without printing. */
  datatype FileResult = Printed(bytes: seq<byte>) | Failed(error: CatError)

  /** Whether one of the buffer allocations for a file of `size` bytes fails. */
  predicate AllocationFails(f: FileInput, size: nat)
  {
    f.allocFailsAt.Some? && f.allocFailsAt.value < BlockCount(size)
  }

  /** Whether read_and_print_file gives up on this argument and returns 1:
      open, the size query, a buffer allocation or readv fails. This
      depends only on the results of those calls, never on the file's bytes. */
  predicate Fails(f: FileInput)
  {
    var size := ResolveSize(f.stat, f.ioctl);
    !f.opens || size.Failure? || AllocationFails(f, size.value) || f.readvFails
  }

  /** readv delivers at least the planned number of bytes whenever it is
      reached and succeeds. The routine never compares readv's count with
      the plan, so a short read is outside what this model describes. A
      file that fails never reaches emission and is unconstrained. */
  predicate NoShortRead(f: FileInput)
  {
    !Fails(f) ==> |f.data| >= ResolveSize(f.stat, f.ioctl).value
  }

  /** The outcome of read_and_print_file on one argument. Stages run in
      read_and_print_file's order: open, size query, buffer allocation, readv, emission. */
  function FileOutcome(f: FileInput): (r: FileResult)
    requires NoShortRead(f)
    ensures r.Failed? <==> Fails(f)
    ensures !f.opens ==> r == Failed(OpenFailed)
    ensures f.opens && ResolveSize(f.stat, f.ioctl).Failure? ==> r == Failed(ResolveSize(f.stat, f.ioctl).error)
    ensures r.Printed? ==> r.bytes == f.data[..ResolveSize(f.stat, f.ioctl).value]
  {
    if !f.opens then Failed(OpenFailed)
    else
      match ResolveSize(f.stat, f.ioctl)
      case Failure(e) => Failed(e)
      case Success(size) =>
        if AllocationFails(f, size) then Failed(AllocationFailed)
        else if f.readvFails then Failed(ReadFailed)
        else Printed(ReadThroughPlan(f.data, size))
  }

  /** A regular file is printed verbatim, all of it, when every call on it
      succeeds and its stat size is its length. */
  lemma RegularFileRoundTrip(f: FileInput)
    requires f.opens && f.stat == Stat(RegularFile, |f.data|)
    requires f.allocFailsAt.None? && !f.readvFails
    ensures NoShortRead(f)
    ensures FileOutcome(f) == Printed(f.data)
  {
    assert f.data[..|f.data|] == f.data;
  }

  /** An empty regular file is planned with no buffer and prints nothing,
      whatever the allocator would have done. */
  lemma EmptyFilePrintsNothing(f: FileInput)
    requires f.opens && f.stat == Stat(RegularFile, 0) && !f.readvFails
    ensures NoShortRead(f)
    ensures Plan(0) == []
    ensures FileOutcome(f) == Printed([])
  {
  }

  /** read_and_print_file: the imperative composition of the stages. */
  method ReadAndPrintFile(f: FileInput) returns (r: FileResult)
    requires NoShortRead(f)
    ensures r == FileOutcome(f)
  {
    if !f.opens {
      return Failed(OpenFailed);
    }
    var size := ResolveSize(f.stat, f.ioctl);
    if size.Failure? {
      return Failed(size.error);
    }
    var ok, blocks, lens := PlanChunks(size.value, f.allocFailsAt);
    if !ok {
      return Failed(AllocationFailed);
    }
    if f.readvFails {
      return Failed(ReadFailed);
    }
    PlanSum(size.value);
    var bufs := Scatter(f.data[..size.value], lens);
    var out := EmitBuffers(bufs);
    return Printed(out);
  }

  /** The index of the first argument on which read_and_print_file fails,
      or the number of arguments when none does. */
  function FirstFailing(files: seq<FileInput>): (k: nat)
    ensures k <= |files|
    ensures forall i :: 0 <= i < k ==> !Fails(files[i])
    ensures k < |files| ==> Fails(files[k])
  {
    if |files| == 0 then 0
    else if Fails(files[0]) then 0
    else 1 + FirstFailing(files[1..])
  }

  /** A failing argument preceded only by arguments that do not fail is the
      first failing one. */
  lemma FirstFailingIs(files: seq<FileInput>, k: nat)
    requires k < |files| && Fails(files[k])
    requires forall i :: 0 <= i < k ==> !Fails(files[i])
    ensures FirstFailing(files) == k
  {
  }

  /** The bytes printed for the given arguments, in argument order; an
      argument that fails contributes nothing. */
  function Contents(files: seq<FileInput>): seq<byte>
    requires forall i :: 0 <= i < |files| ==> NoShortRead(files[i])
  {
    if |files| == 0 then []
    else
      var last := FileOutcome(files[|files| - 1]);
      Contents(files[..|files| - 1]) + (if last.Printed? then last.bytes else [])
  }

  /** Handling one more argument appends what it prints. */
  lemma ContentsStep(files: seq<FileInput>, i: nat)
    requires i < |files|
    requires forall j :: 0 <= j <= i ==> NoShortRead(files[j])
    ensures Contents(files[..i + 1]) == Contents(files[..i])
      + (if FileOutcome(files[i]).Printed? then FileOutcome(files[i]).bytes else [])
  {
    assert files[..i + 1][..i] == files[..i];
  }

  /** main: no argument is a usage error; otherwise the arguments are
      printed in order and the first failure ends the run with status 1,
      after the output of the arguments before it. Only the arguments
      before the first failing one must read in full; later ones are
      never opened. */
  method Cat(files: seq<FileInput>) returns (status: int, stdout: seq<byte>)
    requires forall i :: 0 <= i < FirstFailing(files) ==> NoShortRead(files[i])
    ensures |files| == 0 ==> status == 1 && stdout == []
    ensures status == 0 || status == 1
    ensures status == 0 <==> |files| > 0 && FirstFailing(files) == |files|
    ensures stdout == Contents(files[..FirstFailing(files)])
  {
    if |files| == 0 {
      return 1, [];
    }
    stdout := [];
    for i := 0 to |files|
      invariant i <= FirstFailing(files)
      invariant stdout == Contents(files[..i])
    {
      var r := ReadAndPrintFile(files[i]);
      if r.Failed? {
        assert FirstFailing(files) == i;
        return 1, stdout;
      }
      ContentsStep(files, i);
      stdout := stdout + r.bytes;
    }
    assert files[..|files|] == files;
    return 0, stdout;
  }

  /** Arguments after the first failing one are never looked at: two
      argument lists that agree up to and including the first failing
      argument fail at the same place, and the arguments before it (the
      only ones `Cat` prints) are the same. Nothing is required of the
      arguments that follow. */
  lemma FailFast(files: seq<FileInput>, other: seq<FileInput>)
    requires FirstFailing(files) < |files|
    requires FirstFailing(files) < |other|
    requires other[..FirstFailing(files) + 1] == files[..FirstFailing(files) + 1]
    ensures FirstFailing(other) == FirstFailing(files)
    ensures other[..FirstFailing(other)] == files[..FirstFailing(files)]
  {
    var k := FirstFailing(files);
    forall i | 0 <= i <= k
      ensures other[i] == files[i]
    {
      assert other[i] == other[..k + 1][i];
      assert files[i] == files[..k + 1][i];
    }
    FirstFailingIs(other, k);
    assert other[..k] == files[..k];
  }

  /** The data of each argument, in argument order. */
  function DataOf(files: seq<FileInput>): (datas: seq<seq<byte>>)
    ensures |datas| == |files|
    ensures forall i :: 0 <= i < |files| ==> datas[i] == files[i].data
  {
    seq(|files|, i requires 0 <= i < |files| => files[i].data)
  }

  /** Arguments that are each printed verbatim produce their data
      concatenated in argument order. */
  lemma {:induction false} ContentsOfVerbatim(files: seq<FileInput>)
    requires forall i :: 0 <= i < |files| ==> NoShortRead(files[i])
    requires forall i :: 0 <= i < |files| ==> FileOutcome(files[i]) == Printed(files[i].data)
    ensures Contents(files) == Flatten(DataOf(files))
  {
    if |files| > 0 {
      var n := |files| - 1;
      ContentsOfVerbatim(files[..n]);
      assert DataOf(files)[..n] == DataOf(files[..n]);
    }
  }

  /** When every argument is a regular file that reads in full, none fails
      and the output is the files' bytes concatenated in argument order,
      with nothing between them. */
  lemma AllRegularFilesConcatenate(files: seq<FileInput>)
    requires forall i :: 0 <= i < |files| ==>
      files[i].opens && files[i].stat == Stat(RegularFile, |files[i].data|)
      && files[i].allocFailsAt.None? && !files[i].readvFails
    ensures forall i :: 0 <= i < |files| ==> NoShortRead(files[i])
    ensures FirstFailing(files) == |files|
    ensures Contents(files) == Flatten(DataOf(files))
  {
    forall i | 0 <= i < |files|
      ensures NoShortRead(files[i]) && FileOutcome(files[i]) == Printed(files[i].data)
    {
      RegularFileRoundTrip(files[i]);
    }
    ContentsOfVerbatim(files);
  }
}

=== FILE: emitter.dfy ===
/** The vectorized read and the in-order emission of the filled buffers.
    readv is abstracted as a scatter: buffer i receives the i-th consecutive
    slice of the bytes read, as long as its planned length. */
module Emitter {
  import opened Environment
  import opened ChunkPlan

  /** The bytes of all buffers written one after the other. */
  function Flatten(bufs: seq<seq<byte>>): seq<byte>
  {
    if |bufs| == 0 then [] else Flatten(bufs[..|bufs| - 1]) + bufs[|bufs| - 1]
  }

  /** A full readv into buffers of the given lengths. */
  function Scatter(data: seq<byte>, lens: seq<nat>): (bufs: seq<seq<byte>>)
    requires |data| == Sum(lens)
    ensures |bufs| == |lens|
    ensures forall i :: 0 <= i < |lens| ==> |bufs[i]| == lens[i]
    decreases |lens|
  {
    if |lens| == 0 then []
    else
      var k := Sum(lens[..|lens| - 1]);
      Scatter(data[..k], lens[..|lens| - 1]) + [data[k..]]
  }

  /** The sum of a prefix of lengths grows by the next length. */
  lemma SumPrefixStep(lens: seq<nat>, i: nat)
    requires i < |lens|
    ensures Sum(lens[..i + 1]) == Sum(lens[..i]) + lens[i]
  {
    assert lens[..i + 1][..i] == lens[..i];
  }

  /** A prefix of lengths never sums past the whole. */
  lemma {:induction false} SumPrefixBound(lens: seq<nat>, i: nat)
    requires i <= |lens|
    ensures Sum(lens[..i]) <= Sum(lens)
  {
    if i < |lens| {
      SumPrefixBound(lens[..|lens| - 1], i);
      assert lens[..|lens| - 1][..i] == lens[..i];
      assert lens[..|lens|] == lens;
    } else {
      assert lens[..i] == lens;
    }
  }

  /** Buffer i holds the bytes of `data` from the end of buffer i - 1 on,
      for exactly its planned length. */
  lemma {:induction false} ScatterSlice(data: seq<byte>, lens: seq<nat>, i: nat)
    requires |data| == Sum(lens)
    requires i < |lens|
    ensures Sum(lens[..i]) + lens[i] <= |data|
    ensures Scatter(data, lens)[i] == data[Sum(lens[..i]) .. Sum(lens[..i]) + lens[i]]
    decreases |lens|
  {
    SumPrefixStep(lens, i);
    SumPrefixBound(lens, i + 1);
    var n := |lens| - 1;
    var k := Sum(lens[..n]);
    if i < n {
      ScatterSlice(data[..k], lens[..n], i);
      assert lens[..n][..i] == lens[..i];
      assert Scatter(data, lens)[i] == Scatter(data[..k], lens[..n])[i];
      assert data[..k][Sum(lens[..i]) .. Sum(lens[..i]) + lens[i]] == data[Sum(lens[..i]) .. Sum(lens[..i]) + lens[i]];
    }
  }

  /** Emitting the buffers that one full readv filled reproduces the bytes
      read, in order and unchanged. */
  lemma {:induction false} ScatterFlatten(data: seq<byte>, lens: seq<nat>)
    requires |data| == Sum(lens)
    ensures Flatten(Scatter(data, lens)) == data
    decreases |lens|
  {
    if |lens| > 0 {
      var n := |lens| - 1;
      var k := Sum(lens[..n]);
      var bufs := Scatter(data, lens);
      ScatterFlatten(data[..k], lens[..n]);
      assert bufs[..n] == Scatter(data[..k], lens[..n]);
      assert data[..k] + data[k..] == data;
    }
  }

  /** The emission loop: each buffer is written out in index order, with
      its planned length. */
  method EmitBuffers(bufs: seq<seq<byte>>) returns (out: seq<byte>)
    ensures out == Flatten(bufs)
  {
    out := [];
    for i := 0 to |bufs|
      invariant out == Flatten(bufs[..i])
    {
      assert bufs[..i + 1][..i] == bufs[..i];
      out := out + bufs[i];
    }
    assert bufs[..|bufs|] == bufs;
  }

  /** One file's read and emission: the first `size` bytes are read through
      the buffer plan for `size` and written out, which outputs exactly
      those bytes. */
  function ReadThroughPlan(data: seq<byte>, size: nat): (out: seq<byte>)
    requires size <= |data|
    ensures out == data[..size]
  {
    PlanSum(size);
    ScatterFlatten(data[..size], Plan(size));
    Flatten(Scatter(data[..size], Plan(size)))
  }
}

=== FILE: environment.dfy ===
/** What the chunked reader sees of its environment. The system calls
    themselves (open, fstat, ioctl, posix_memalign, readv, fwrite) are not
    modelled; a path argument is described by what each call returns for it. */
module Environment {

  /** One byte of file content. */
  newtype byte = x: int | 0 <= x < 256

  datatype Option<T> = None | Some(value: T)

  /** The entry types fstat can report in st_mode for a descriptor from
      open, which follows symbolic links. */
  datatype EntryType =
    | RegularFile
    | BlockDevice
    | Directory
    | CharDevice
    | Fifo
    | Socket

  /** The outcome of fstat on an open descriptor. */
  datatype StatResult = StatFailed | Stat(kind: EntryType, size: nat)

  /** The outcome of ioctl(BLKGETSIZE64) on a block device. */
  datatype IoctlResult = IoctlFailed | IoctlSize(bytes: nat)

  /** Which size query failed. */
  datatype SizeCall = Fstat | Ioctl

  /** Why a file could not be printed; each kind is one early exit of the
      per-file routine. */
  datatype CatError =
    | OpenFailed
    | SizeQueryFailed(call: SizeCall)
    | UnsupportedEntryType
    | AllocationFailed
    | ReadFailed

  datatype Result<T> = Success(value: T) | Failure(error: CatError)

  /** One path argument, described by the results of the calls made on it:
      whether open succeeds, what fstat and the device-size ioctl report,
      which posix_memalign call (counting from 0) fails first, if any,
      whether readv reports an error, and the bytes readable from the
      start of the file. */
  datatype FileInput = FileInput(
    opens: bool,
    stat: StatResult,
    ioctl: IoctlResult,
    allocFailsAt: Option<nat>,
    readvFails: bool,
    data: seq<byte>)
}

=== FILE: size_resolver.dfy ===
/** Size discovery for an open entry (get_file_size). */
module SizeResolver {
  import opened Environment

  /** The sentinel get_file_size returns when it cannot produce a size. */
  const NoSize: int := -1

  /** Whether fstat and, for a block device, the size ioctl produce a size. */
  predicate HasSize(st: StatResult, io: IoctlResult)
  {
    st.Stat? && (st.kind == RegularFile || (st.kind == BlockDevice && io.IoctlSize?))
  }

  /** get_file_size as written: the byte length of a regular file or a block
      device, and -1 for a failed fstat, a failed ioctl or any other entry type. */
  function GetFileSize(st: StatResult, io: IoctlResult): (r: int)
    ensures r == NoSize <==> !HasSize(st, io)
    ensures r >= 0 <==> HasSize(st, io)
    ensures HasSize(st, io) && st.kind == BlockDevice ==> r == io.bytes
    ensures HasSize(st, io) && st.kind == RegularFile ==> r == st.size
  {
    if st.StatFailed? then NoSize
    else if st.kind == BlockDevice then
      if io.IoctlFailed? then NoSize else io.bytes
    else if st.kind == RegularFile then st.size
    else NoSize
  }

  /** The same decision with the failure kept as an explicit error instead of
      the -1 sentinel: fstat failure, then entry type, then ioctl failure. */
  function ResolveSize(st: StatResult, io: IoctlResult): (r: Result<nat>)
    ensures r.Success? <==> HasSize(st, io)
    ensures r.Success? ==> r.value == if st.kind == BlockDevice then io.bytes else st.size
    ensures r.Failure? && st.Stat? && st.kind == BlockDevice ==> r.error == SizeQueryFailed(Ioctl)
    ensures r.Failure? && st.Stat? && st.kind != BlockDevice ==> r.error == UnsupportedEntryType
    ensures st.StatFailed? ==> r == Failure(SizeQueryFailed(Fstat))
  {
    match st
    case StatFailed => Failure(SizeQueryFailed(Fstat))
    case Stat(BlockDevice, _) =>
      (match io
       case IoctlFailed => Failure(SizeQueryFailed(Ioctl))
       case IoctlSize(bytes) => Success(bytes))
    case Stat(RegularFile, size) => Success(size)
    case Stat(_, _) => Failure(UnsupportedEntryType)
  }

  /** The explicit-error resolver and get_file_size, which returns a -1 sentinel, agree:
      -1 exactly when the resolver fails, the same size otherwise. */
  lemma SentinelMatchesResolve(st: StatResult, io: IoctlResult)
    ensures ResolveSize(st, io).Failure? <==> GetFileSize(st, io) == NoSize
    ensures ResolveSize(st, io).Success? ==> GetFileSize(st, io) == ResolveSize(st, io).value
  {
  }
}
